=== FILE: README.md ===
# slack-hello-back, modelled in Dafny

slack-hello-back is a Vert.x verticle that answers a chat platform's outgoing
webhook. It receives a form-encoded `POST /hello`. The form must carry ten
fields: `token`, `timestamp`, `team_id`, `team_domain`, `channel_id`,
`channel_name`, `user_id`, `user_name`, `trigger_word` and `text`. The
verticle answers in one of two ways:

- **200** with the JSON object `{"text": "Hey, <@USER_ID|USER_NAME> :sunglasses:"}`;
- **400** with no body, when the form does not parse.

Before the server starts, six environment variables are laid over the
verticle's JSON configuration. The port (default 8443), TLS (default on) and
the keystore are then read from the result.

The model covers the decision logic of the two core classes.

- `SlackRequest.parse` and `getPostValue` become `Request`:
  - the form is a `map<string, string>`;
  - fields are read in source order and the first failure ends the parse;
  - the internal error is kept, and the public result is an `Option`.
- `TIMESTAMP_FORMATTER` becomes `Timestamp`, which parses field by field the
  way `DateTimeFormatter` does:
  - a fixed-width 10-digit epoch-seconds field;
  - the mandatory literal `.`;
  - a fraction of 0 to 9 digits, scaled to nanoseconds;
  - a check that no text is left over.

  `Digits` holds the shared digit-string arithmetic.
- `overrideConfigurationWithEnv`, the option reading in `start` and
  `validateOptions` become `Configuration`:
  - the configuration is a map to tagged JSON values;
  - the environment is a map;
  - the Base64 decoder is a function parameter.
- `helloRequest` and `HELLO_RESPONSE_FORMAT` become `Handler`.
- The JDK routines the code relies on are in `JavaLang`: `Integer.valueOf`,
  `Boolean.valueOf`, `String.format` with `%s`, and `Arrays.toString`.
- Properties of the whole start-up path are lemmas in `Startup`.
- `Wrappers` holds `Option`, `Result` and `Outcome`.

Where the code does something narrower or broader than a loose reading of the
service's contract, the model follows the code:

- A timestamp without the `.` is refused. The literal is mandatory, so
  `"1426992833"` fails while `"1426992833."` parses to nanos 0.
- An environment variable that is set overrides its key even when its value is
  the empty string. A set `SHB_HTTP_PORT` or `PORT` that `Integer.valueOf`
  refuses aborts the start. `SHB_USE_SSL` never fails, and any text other than
  "true" (in any case) turns TLS off.
- With TLS on, both `keystore_file` and `keystore_pass` must be present, even
  when `keystore_contents` supplies the key material inline. Once both are
  present, inline contents take precedence over the file path.
- The greeting prefix is always "Hey".

## Model

| member | source | states |
|---|---|---|
| Timestamp.Parse | src/main/java/pt/davidafsilva/shb/SlackRequest.java:59-63 | accepts exactly the texts of ten ASCII digits, a '.', and zero to nine digits with nothing after them; the seconds are the value of the ten digits and the nanos the fraction scaled to nine places, both within their field widths |
| Timestamp.ParseFraction | src/main/java/pt/davidafsilva/shb/SlackRequest.java:62-63 | after the seconds and the '.', the fraction field of at most nine digits succeeds exactly when no text is left unparsed, and yields the scaled nanos |
| Timestamp.Nanos | src/main/java/pt/davidafsilva/shb/SlackRequest.java:62 | a fraction of up to nine digits is a nano-of-second value, below 10^9 |
| Timestamp.NanosTrailingZero | src/main/java/pt/davidafsilva/shb/SlackRequest.java:62 | a trailing zero in the fraction does not change the nanos (".5" and ".50" are the same instant) |
| Timestamp.ParseRender | src/main/java/pt/davidafsilva/shb/SlackRequest.java:59-63 | every instant with ten-digit seconds, written as zero-padded seconds, '.', and nine nano digits, parses back to itself |
| Timestamp.MicrosecondExample | src/main/java/pt/davidafsilva/shb/SlackRequest.java:59-63 | "1426992833.123456" is second 1426992833 with 123456000 nanos |
| Timestamp.EmptyFractionExample | src/main/java/pt/davidafsilva/shb/SlackRequest.java:61-62 | "1426992833." parses with nanos 0, while "1426992833" without the '.' is refused |
| Timestamp.MalformedExamples | src/main/java/pt/davidafsilva/shb/SlackRequest.java:59-63 | letters, the empty text, eleven second digits, trailing text, ten fraction digits and a sign are all refused |
| Digits.CountDigits | src/main/java/pt/davidafsilva/shb/SlackRequest.java:60 | the scan of a width-limited number field stops at the width limit, at the end of the text or at the first non-digit, and everything it consumed is digits |
| Request.GetPostValue | src/main/java/pt/davidafsilva/shb/SlackRequest.java:133-136 | succeeds exactly when the field is in the form, with its value, an empty value included; otherwise fails naming the field |
| Request.GetPostValues | src/main/java/pt/davidafsilva/shb/SlackRequest.java:108-115 | reading fields in turn succeeds exactly when none is absent, each value is the form's value for that field, and a failure names the first absent field |
| Request.ParseRequest | src/main/java/pt/davidafsilva/shb/SlackRequest.java:101-123 | a request is built exactly when all ten fields are present and the timestamp is well-formed; each request field is the form's value of its field and the timestamp the parsed instant; a timestamp error carries the raw text and arises only after token and timestamp were found |
| Request.Parse | src/main/java/pt/davidafsilva/shb/SlackRequest.java:116-120 | any failure becomes the empty result; a request exists exactly when all fields are present and the timestamp is well-formed |
| Request.MissingFieldIsFirstAbsent | src/main/java/pt/davidafsilva/shb/SlackRequest.java:104-115 | a missing-field failure names the first absent field in the fixed reading order, and a field after the timestamp is reported only when the timestamp parsed |
| Request.AllPresentIffNoneAbsent | src/main/java/pt/davidafsilva/shb/SlackRequest.java:105-115 | the ten required fields are all present exactly when the ordered scan finds none absent |
| Request.MissingFieldRefused | src/main/java/pt/davidafsilva/shb/SlackRequest.java:117-120 | leaving out any one of the ten fields makes the parse empty |
| Request.EmptyValueAccepted | src/main/java/pt/davidafsilva/shb/SlackRequest.java:133-136 | blanking any field other than the timestamp in a parsing form still parses: only absence is refused |
| Request.EmptyTimestampRefused | src/main/java/pt/davidafsilva/shb/SlackRequest.java:106-107 | an empty timestamp with every field present fails as a malformed timestamp |
| Request.GetPostValuesAgree | src/main/java/pt/davidafsilva/shb/SlackRequest.java:108-115 | two forms that agree on a list of fields read that list alike |
| Request.ParseReadsOnlyRequiredFields | src/main/java/pt/davidafsilva/shb/SlackRequest.java:101-123 | the parse depends on the ten fields alone: forms that agree on them, whatever else they carry, parse to the same result |
| JavaLang.ParseInt | src/main/java/pt/davidafsilva/shb/HelloVerticle.java:122-125 | a port text is accepted exactly when it is an optional sign then at least one ASCII digit whose signed value fits in 32 bits, and the result is that signed value |
| JavaLang.ParseIntToDecimal | src/main/java/pt/davidafsilva/shb/HelloVerticle.java:122-125 | every 32-bit integer written in decimal is read back as itself |
| JavaLang.ParseIntExamples | src/main/java/pt/davidafsilva/shb/HelloVerticle.java:122-125 | "8080" reads as 8080 and "-1" as -1 |
| JavaLang.ParseIntRefusals | src/main/java/pt/davidafsilva/shb/HelloVerticle.java:122-125 | "", "+", "80a" and " 80" are refused |
| JavaLang.ParseIntPlusSign | src/main/java/pt/davidafsilva/shb/HelloVerticle.java:122-125 | a '+' before the digits does not change the value read |
| JavaLang.ParseIntLeadingZero | src/main/java/pt/davidafsilva/shb/HelloVerticle.java:122-125 | a leading zero does not change the value read |
| JavaLang.ParseIntSignedLeadingZero | src/main/java/pt/davidafsilva/shb/HelloVerticle.java:122-125 | a leading zero after a sign does not change the value read |
| JavaLang.PortTextExamples | src/main/java/pt/davidafsilva/shb/HelloVerticle.java:122-125 | `PORT=+8080` and `PORT=08080` both give port 8080 |
| JavaLang.BooleanValueOf | src/main/java/pt/davidafsilva/shb/HelloVerticle.java:126-127 | `SHB_USE_SSL` reads as true exactly for the four letters t, r, u, e in any case, and as false otherwise, never failing |
| JavaLang.BooleanValueOfExamples | src/main/java/pt/davidafsilva/shb/HelloVerticle.java:126-127 | "true", "TRUE" and "tRuE" are true, while "", "yes", "1", "true " and "false" are false |
| JavaLang.FormatLiteral | src/main/java/pt/davidafsilva/shb/HelloVerticle.java:172-173 | format text without '%' is copied through and the rest formatted after it |
| JavaLang.FormatString | src/main/java/pt/davidafsilva/shb/HelloVerticle.java:172-173 | a `%s` is replaced by the first argument and the rest formatted with the remaining ones |
| JavaLang.Format | src/main/java/pt/davidafsilva/shb/HelloVerticle.java:172 | a format only fails when it contains a '%' (an unsupported conversion or a missing argument) |
| JavaLang.FormatWithoutConversions | src/main/java/pt/davidafsilva/shb/HelloVerticle.java:172 | a format without '%' formats to itself, whatever the arguments |
| JavaLang.ArrayToString | src/main/java/pt/davidafsilva/shb/HelloVerticle.java:148 | the names are written between brackets: "[]" for none, "[a]" for one, "[a, b]" for two |
| Handler.GreetingFormat | src/main/java/pt/davidafsilva/shb/HelloVerticle.java:58 | the template filled with id and name succeeds and is "Hey, <@", the id, a vertical bar, the name and "> :sunglasses:", id first |
| Handler.Greeting | src/main/java/pt/davidafsilva/shb/HelloVerticle.java:171-173 | the greeting text wraps the user id and name in the mention syntax and the emoji code, id before name |
| Handler.GreetingExample | src/main/java/pt/davidafsilva/shb/HelloVerticle.java:58 | user "U123" named "alice" is greeted with exactly the mention of U123 as alice followed by ":sunglasses:" |
| Handler.HelloRequest | src/main/java/pt/davidafsilva/shb/HelloVerticle.java:160-179 | the status is 200 or 400; 200 exactly when all fields are present and the timestamp is well-formed; 400 has no body; 200 has a JSON object whose only member `text` greets the form's user id and user name |
| Handler.HelloExample | src/main/java/pt/davidafsilva/shb/HelloVerticle.java:170-177 | a parsing form from "U123"/"alice" is answered 200 with exactly that greeting as the `text` member |
| Handler.MissingUserNameExample | src/main/java/pt/davidafsilva/shb/HelloVerticle.java:167-168 | a form without `user_name` is answered 400 with no body |
| Configuration.Coerce | src/main/java/pt/davidafsilva/shb/HelloVerticle.java:116-127 | only the integer conversion of an environment value can fail; string and boolean conversions always succeed |
| Configuration.OverlaidFirst | src/main/java/pt/davidafsilva/shb/HelloVerticle.java:115-128 | applying the first override and overlaying the rest gives the last-writer-wins overlay of all of them |
| Configuration.ApplyOverrides | src/main/java/pt/davidafsilva/shb/HelloVerticle.java:115-128 | applying overrides in order succeeds exactly when every set variable converts; each key then holds the value of its last set override, or its base value; a failure names the first variable that did not convert, with its value |
| Configuration.OverrideConfigurationWithEnv | src/main/java/pt/davidafsilva/shb/HelloVerticle.java:115-128 | succeeds exactly when both port variables are unset or valid; `SHB_HTTP_PORT` is blamed before `PORT`; the three keystore keys take the variable's text when it is set; `http_port` comes from `PORT` over `SHB_HTTP_PORT` over the base; `use_https` is `Boolean.valueOf` of `SHB_USE_SSL` when set; every other key is untouched |
| Configuration.GetInteger | src/main/java/pt/davidafsilva/shb/HelloVerticle.java:80 | the default when the key is absent, the stored integer when it holds one, a type error otherwise |
| Configuration.GetBoolean | src/main/java/pt/davidafsilva/shb/HelloVerticle.java:81 | the default when the key is absent, the stored boolean when it holds one, a type error otherwise |
| Configuration.GetString | src/main/java/pt/davidafsilva/shb/HelloVerticle.java:89 | the stored string of a present key, a type error for another type |
| Configuration.Missing | src/main/java/pt/davidafsilva/shb/HelloVerticle.java:144-146 | the missing names are the required names absent from the configuration, each as often as it is required, in their requested order |
| Configuration.ValidateOptions | src/main/java/pt/davidafsilva/shb/HelloVerticle.java:143-153 | passes exactly when every required key is present, and otherwise fails listing all the missing ones, never an empty list |
| Configuration.MissingMessage | src/main/java/pt/davidafsilva/shb/HelloVerticle.java:148 | the failure message is the fixed prefix followed by the bracketed list of names, "[a]" for a single name |
| Configuration.ServerOptionsFrom | src/main/java/pt/davidafsilva/shb/HelloVerticle.java:79-96 | succeeds exactly when the read keys have their types and, with TLS on, both keystore keys are present with usable key material; the port is `http_port` or 8443; TLS is `use_https` or on; a keystore exactly when TLS is on, with `keystore_pass` as password; inline decoded contents exactly when `keystore_contents` is present, else the `keystore_file` path; a missing-keys failure happens exactly when the port and TLS flag have their types, TLS is on and a keystore key is missing, and it names the missing keys; no number-format failure arises here |
| Configuration.Start | src/main/java/pt/davidafsilva/shb/HelloVerticle.java:64-97 | the start succeeds exactly when both port variables are unset or valid and the overlaid configuration is readable as options; it fails on a number format exactly when a port variable is invalid; whenever both port variables parse, the result, success or failure, is the one read from the overlaid configuration |
| Startup.PortWinsOverHttpPort | src/main/java/pt/davidafsilva/shb/HelloVerticle.java:122-125 | with both port variables valid, the server port is `PORT`'s |
| Startup.InvalidHttpPortAborts | src/main/java/pt/davidafsilva/shb/HelloVerticle.java:122-123 | an invalid `SHB_HTTP_PORT` aborts the start with its number-format error even when `PORT` is valid |
| Startup.Defaults | src/main/java/pt/davidafsilva/shb/HelloVerticle.java:79-81 | with nothing setting them, a successful start uses port 8443 and has TLS on |
| Startup.TlsOffSkipsKeystore | src/main/java/pt/davidafsilva/shb/HelloVerticle.java:79-97 | for any configuration, a `SHB_USE_SSL` other than "true" gives a start without TLS or keystore, or a failure on a port: a number format or a non-integer `http_port` |
| Startup.ContentsDoNotExcuseFile | src/main/java/pt/davidafsilva/shb/HelloVerticle.java:82-86 | with TLS on and an integer or absent port, a missing `keystore_file` fails the start even when `keystore_contents` is given, and is named in the error |
| Startup.InlineContentsPreferred | src/main/java/pt/davidafsilva/shb/HelloVerticle.java:88-92 | with TLS on, an integer or absent port and both required keys present, whatever value `keystore_file` holds, decodable inline contents become the key material and the path is not used |
| Startup.KeystorePathWithoutContents | src/main/java/pt/davidafsilva/shb/HelloVerticle.java:93-95 | with TLS on, an integer or absent port and no inline contents, the keystore is read from `keystore_file` with `keystore_pass` |
| Startup.NoKeystoreKeys | src/main/java/pt/davidafsilva/shb/HelloVerticle.java:143-148 | with TLS on, an integer or absent port and neither keystore key, the failure names both, file first |
| Startup.EmptyEnvironment | src/main/java/pt/davidafsilva/shb/HelloVerticle.java:115-128 | an empty environment leaves the configuration exactly as it was |
| Startup.BothKeystoreKeysMissing | src/main/java/pt/davidafsilva/shb/HelloVerticle.java:82-86 | with an empty environment, any configuration with TLS on, an integer or absent port and no keystore keys fails naming both keys |
| Startup.BothKeystoreKeysMessage | src/main/java/pt/davidafsilva/shb/HelloVerticle.java:148 | the message for the two keystore keys is the fixed prefix followed by "[keystore_file, keystore_pass]" |
| Startup.KeystoreKeysList | src/main/java/pt/davidafsilva/shb/HelloVerticle.java:148 | the two keystore keys are written as "[keystore_file, keystore_pass]" |
| Startup.KeystoreFromEnvironmentPath | src/main/java/pt/davidafsilva/shb/HelloVerticle.java:64-97 | with only the keystore path and password in the environment and an empty configuration, the server starts on 8443 with TLS reading the keystore from that path |

## Left out

- The Vert.x machinery is not modelled: the router, `BodyHandler`, the `produces("application/json")` route condition, server creation, `listen`, `stop` and the asynchronous start future. `Configuration.Start` ends where the options are complete.
- Logging and `SlackRequest.toString` are not modelled, because they do not affect results.
- The 200 body is the JSON object as a value. Encoding it as text, with its escaping, is not modelled.
- Base64 decoding of `keystore_contents` is the `decode` parameter, and `None` stands for the decoder's rejection. The JDK decoder is not part of this model.
- `System.getenv` is the `Env` map, and the verticle's configuration is the `Config` map.
- Request.Form: the form is single-valued and keyed by exact field name. A Vert.x `MultiMap` with repeated or case-variant names is not modelled.
- Timestamp.Instant is the (seconds, nanos) pair that `Instant.from` receives. The conversion cannot fail for ten-digit seconds, so `java.time.Instant` itself is not modelled.
- JavaLang.ParseInt: only ASCII digits are accepted. `Integer.valueOf` also accepts other Unicode decimal digits; the model does not.
- JavaLang.Format: only the `%s` and `%%` conversions are modelled. Every other use of '%' is treated as an unsupported format. The service's template uses only `%s`.
- Configuration.JsonValue: JSON `null`, other numeric types and nested values are not modelled. A key that is read is either absent or holds an integer, a boolean or a string.
- Configuration.GetInteger: a value of the wrong type is a `WrongType` error, standing for Vert.x's `ClassCastException`. Vert.x's narrowing of non-`Integer` JSON numbers is not modelled.
- Configuration.ServerOptionsFrom: any port range check that the HTTP server options may apply is not modelled, so the port is any integer the configuration or a port variable supplies.
- Parse idempotence: the same form always gives the same request because the model is made of functions. `Request.ParseReadsOnlyRequiredFields` states the stronger property that only the ten fields matter.
- A second deployment variant of the service greets with "Hello". It is not part of this model; the template here is the one in `HelloVerticle.java`.

=== FILE: configuration.dfy ===
/** Startup configuration: six environment variables laid over the verticle's
    JSON configuration in a fixed order, then the server options read from the
    result: the port (default 8443), TLS (default on) and, with TLS, the
    keystore password and key material, after checking that the keystore
    file and password keys are present. */
module Configuration {
  import opened Wrappers
  import JavaLang

  /** The configuration values the service reads or writes. */
  datatype JsonValue = JInt(n: int) | JBool(b: bool) | JStr(s: string)

  type Config = map<string, JsonValue>

  /** The process environment: variable name to value. */
  type Env = map<string, string>

  /** Raw key material, as the Base64 decoder returns it. */
  type Bytes = seq<bv8>

  /** How an environment string becomes a configuration value. */
  datatype Kind = AsString | AsInteger | AsBoolean

  /** One environment variable and the configuration key it overrides. */
  datatype Override = Override(variable: string, key: string, kind: Kind)

  /** The overrides, in the order they are applied: a later one wins. */
  const EnvOverrides: seq<Override> := [
    Override("SHB_KEYSTORE_FILE", "keystore_file", AsString),
    Override("SHB_KEYSTORE_CONTENTS", "keystore_contents", AsString),
    Override("SHB_KEYSTORE_PASS", "keystore_pass", AsString),
    Override("SHB_HTTP_PORT", "http_port", AsInteger),
    Override("PORT", "http_port", AsInteger),
    Override("SHB_USE_SSL", "use_https", AsBoolean)]

  const OverriddenKeys: set<string> :=
    {"keystore_file", "keystore_contents", "keystore_pass", "http_port", "use_https"}

  /** The keys that must be present before TLS options are built. */
  const TlsRequired: seq<string> := ["keystore_file", "keystore_pass"]

  const DefaultPort: int := 8443

  /** Why the verticle does not start. */
  datatype StartError =
    | NumberFormat(variable: string, value: string)  // `Integer.valueOf` refused a port variable
    | WrongType(key: string)                         // a key holds a value of another type
    | MissingProperties(names: seq<string>)          // `validateOptions` found keys missing
    | InvalidKeystoreContents                        // the Base64 decoder refused the contents

  /** Where the TLS layer takes the keystore from. */
  datatype KeystoreSource = InlineValue(bytes: Bytes) | KeystorePath(path: string)

  datatype Keystore = Keystore(password: string, source: KeystoreSource)

  /** The HTTP server options `start` builds; a keystore exactly when TLS is on. */
  datatype ServerOptions = ServerOptions(port: int, ssl: bool, keystore: Option<Keystore>)

  // ---------------------------------------------------------------------------
  // The environment overlay

  function Coerce(kind: Kind, raw: string): (v: Option<JsonValue>)
    ensures kind != AsInteger ==> v.Some?
  {
    match kind
    case AsString => Some(JStr(raw))
    case AsInteger =>
      (match JavaLang.ParseInt(raw)
       case Some(n) => Some(JInt(n))
       case None => None)
    case AsBoolean => Some(JBool(JavaLang.BooleanValueOf(raw)))
  }

  /** The override can be applied: its variable is unset, or its value converts. */
  predicate Applicable(env: Env, o: Override) {
    o.variable in env ==> Coerce(o.kind, env[o.variable]).Some?
  }

  function Apply(config: Config, env: Env, o: Override): Config
    requires Applicable(env, o)
  {
    if o.variable in env then config[o.key := Coerce(o.kind, env[o.variable]).value] else config
  }

  /** Reference reading of an overlay: the value of `key` is that of the LAST
      override of the key whose variable is set, or the base value if none is. */
  function Overlaid(config: Config, env: Env, os: seq<Override>, key: string): Option<JsonValue>
    decreases |os|
  {
    if os == [] then Get(config, key)
    else
      var last := os[|os| - 1];
      if last.key == key && last.variable in env then Coerce(last.kind, env[last.variable])
      else Overlaid(config, env, os[..|os| - 1], key)
  }

  /** Applying the first override and overlaying the rest is overlaying all. */
  lemma {:induction false} OverlaidFirst(config: Config, env: Env, os: seq<Override>, key: string)
    requires |os| > 0 && Applicable(env, os[0])
    ensures Overlaid(Apply(config, env, os[0]), env, os[1..], key) == Overlaid(config, env, os, key)
    decreases |os|
  {
    if |os| > 1 {
      var init := os[..|os| - 1];
      assert os[1..][..|os[1..]| - 1] == init[1..];
      assert init[0] == os[0];
      OverlaidFirst(config, env, init, key);
    }
  }

  /** Applies the overrides in order. The first one whose variable is set to a
      value that does not convert aborts with that variable and value. */
  function ApplyOverrides(config: Config, env: Env, os: seq<Override>): (r: Result<Config, StartError>)
    ensures r.Success? <==> forall i :: 0 <= i < |os| ==> Applicable(env, os[i])
    ensures r.Success? ==> forall k :: Get(r.value, k) == Overlaid(config, env, os, k)
    ensures r.Failure? ==>
      exists i :: 0 <= i < |os| && FirstInapplicable(env, os, i) &&
                  r.error == NumberFormat(os[i].variable, env[os[i].variable])
    decreases |os|
  {
    if os == [] then Success(config)
    else if !Applicable(env, os[0]) then Failure(NumberFormat(os[0].variable, env[os[0].variable]))
    else
      var r := ApplyOverrides(Apply(config, env, os[0]), env, os[1..]);
      assert forall i :: 1 <= i < |os| ==> os[1..][i - 1] == os[i];
      if r.Success? then
        forall k ensures Get(r.value, k) == Overlaid(config, env, os, k) {
          OverlaidFirst(config, env, os, k);
        }
        r
      else
        var j :| 0 <= j < |os[1..]| && FirstInapplicable(env, os[1..], j) &&
                 r.error == NumberFormat(os[1..][j].variable, env[os[1..][j].variable]);
        assert FirstInapplicable(env, os, j + 1);
        r
  }

  predicate FirstInapplicable(env: Env, os: seq<Override>, i: nat)
    requires i < |os|
  {
    !Applicable(env, os[i]) && forall j :: 0 <= j < i ==> Applicable(env, os[j])
  }

  /** A port variable that is unset, or whose value `Integer.valueOf` accepts. */
  predicate PortParses(env: Env, variable: string) {
    variable in env ==> JavaLang.ParseInt(env[variable]).Some?
  }

  /** `overrideConfigurationWithEnv`: each variable that is set, even to the
      empty string, overwrites its key; an unset one leaves the key as it was;
      keys no variable names are untouched. `PORT` is applied after
      `SHB_HTTP_PORT` and so wins; `SHB_USE_SSL` never fails. */
  function OverrideConfigurationWithEnv(config: Config, env: Env): (r: Result<Config, StartError>)
    ensures r.Success? <==> PortParses(env, "SHB_HTTP_PORT") && PortParses(env, "PORT")
    ensures r.Failure? ==>
      r.error == if !PortParses(env, "SHB_HTTP_PORT") then NumberFormat("SHB_HTTP_PORT", env["SHB_HTTP_PORT"])
                 else NumberFormat("PORT", env["PORT"])
    ensures r.Success? ==> forall k :: k !in OverriddenKeys ==> Get(r.value, k) == Get(config, k)
    ensures r.Success? ==>
      Get(r.value, "keystore_file") ==
        if "SHB_KEYSTORE_FILE" in env then Some(JStr(env["SHB_KEYSTORE_FILE"]))
        else Get(config, "keystore_file")
    ensures r.Success? ==>
      Get(r.value, "keystore_contents") ==
        if "SHB_KEYSTORE_CONTENTS" in env then Some(JStr(env["SHB_KEYSTORE_CONTENTS"]))
        else Get(config, "keystore_contents")
    ensures r.Success? ==>
      Get(r.value, "keystore_pass") ==
        if "SHB_KEYSTORE_PASS" in env then Some(JStr(env["SHB_KEYSTORE_PASS"]))
        else Get(config, "keystore_pass")
    ensures r.Success? ==>
      Get(r.value, "http_port") ==
        if "PORT" in env then Some(JInt(JavaLang.ParseInt(env["PORT"]).value))
        else if "SHB_HTTP_PORT" in env then Some(JInt(JavaLang.ParseInt(env["SHB_HTTP_PORT"]).value))
        else Get(config, "http_port")
    ensures r.Success? ==>
      Get(r.value, "use_https") ==
        if "SHB_USE_SSL" in env then Some(JBool(JavaLang.BooleanValueOf(env["SHB_USE_SSL"])))
        else Get(config, "use_https")
  {
    EnvOverridesApplicable(env);
    var r := ApplyOverrides(config, env, EnvOverrides);
    if r.Success? then
      forall k ensures Get(r.value, k) == EnvOverlaid(config, env, k) {
        OverlaidEnv(config, env, k);
      }
      EnvOverlaidKeys(config, env, r.value);
      r
    else
      r
  }

  /** The overlay of the six variables, key by key. */
  function EnvOverlaid(config: Config, env: Env, k: string): Option<JsonValue> {
    if k == "use_https" && "SHB_USE_SSL" in env then Coerce(AsBoolean, env["SHB_USE_SSL"])
    else if k == "http_port" && "PORT" in env then Coerce(AsInteger, env["PORT"])
    else if k == "http_port" && "SHB_HTTP_PORT" in env then Coerce(AsInteger, env["SHB_HTTP_PORT"])
    else if k == "keystore_pass" && "SHB_KEYSTORE_PASS" in env then Coerce(AsString, env["SHB_KEYSTORE_PASS"])
    else if k == "keystore_contents" && "SHB_KEYSTORE_CONTENTS" in env then Coerce(AsString, env["SHB_KEYSTORE_CONTENTS"])
    else if k == "keystore_file" && "SHB_KEYSTORE_FILE" in env then Coerce(AsString, env["SHB_KEYSTORE_FILE"])
    else Get(config, k)
  }

  /** What the overlay of the six variables means for each key read later. */
  lemma EnvOverlaidKeys(config: Config, env: Env, c: Config)
    requires PortParses(env, "SHB_HTTP_PORT") && PortParses(env, "PORT")
    requires forall k :: Get(c, k) == EnvOverlaid(config, env, k)
    ensures forall k :: k !in OverriddenKeys ==> Get(c, k) == Get(config, k)
    ensures
      Get(c, "keystore_file") ==
        if "SHB_KEYSTORE_FILE" in env then Some(JStr(env["SHB_KEYSTORE_FILE"]))
        else Get(config, "keystore_file")
    ensures
      Get(c, "keystore_contents") ==
        if "SHB_KEYSTORE_CONTENTS" in env then Some(JStr(env["SHB_KEYSTORE_CONTENTS"]))
        else Get(config, "keystore_contents")
    ensures
      Get(c, "keystore_pass") ==
        if "SHB_KEYSTORE_PASS" in env then Some(JStr(env["SHB_KEYSTORE_PASS"]))
        else Get(config, "keystore_pass")
    ensures
      Get(c, "http_port") ==
        if "PORT" in env then Some(JInt(JavaLang.ParseInt(env["PORT"]).value))
        else if "SHB_HTTP_PORT" in env then Some(JInt(JavaLang.ParseInt(env["SHB_HTTP_PORT"]).value))
        else Get(config, "http_port")
    ensures
      Get(c, "use_https") ==
        if "SHB_USE_SSL" in env then Some(JBool(JavaLang.BooleanValueOf(env["SHB_USE_SSL"])))
        else Get(config, "use_https")
  {
    assert Get(c, "http_port") == EnvOverlaid(config, env, "http_port");
  }

  lemma OverlaidEnv(config: Config, env: Env, k: string)
    ensures Overlaid(config, env, EnvOverrides, k) == EnvOverlaid(config, env, k)
  {
    var os := EnvOverrides;
    var base := Get(config, k);
    var o0 := Overlaid(config, env, os[..1], k);
    assert os[..1][0] == os[0];
    assert os[..1][..0] == [];
    assert Overlaid(config, env, [], k) == base;
    assert |os[..1]| == 1;
    assert o0 == if k == "keystore_file" && "SHB_KEYSTORE_FILE" in env then Coerce(AsString, env["SHB_KEYSTORE_FILE"]) else base;
    var o1 := Overlaid(config, env, os[..2], k);
    assert os[..2][1] == os[1];
    assert os[..2][..1] == os[..1];
    assert o1 == if k == "keystore_contents" && "SHB_KEYSTORE_CONTENTS" in env then Coerce(AsString, env["SHB_KEYSTORE_CONTENTS"]) else o0;
    var o2 := Overlaid(config, env, os[..3], k);
    assert os[..3][2] == os[2];
    assert os[..3][..2] == os[..2];
    assert o2 == if k == "keystore_pass" && "SHB_KEYSTORE_PASS" in env then Coerce(AsString, env["SHB_KEYSTORE_PASS"]) else o1;
    var o3 := Overlaid(config, env, os[..4], k);
    assert os[..4][3] == os[3];
    assert os[..4][..3] == os[..3];
    assert o3 == if k == "http_port" && "SHB_HTTP_PORT" in env then Coerce(AsInteger, env["SHB_HTTP_PORT"]) else o2;
    var o4 := Overlaid(config, env, os[..5], k);
    assert os[..5][4] == os[4];
    assert os[..5][..4] == os[..4];
    assert o4 == if k == "http_port" && "PORT" in env then Coerce(AsInteger, env["PORT"]) else o3;
    assert os[..|os| - 1] == os[..5];
  }

  lemma EnvOverridesApplicable(env: Env)
    ensures (forall i :: 0 <= i < |EnvOverrides| ==> Applicable(env, EnvOverrides[i])) <==>
      PortParses(env, "SHB_HTTP_PORT") && PortParses(env, "PORT")
    ensures (exists i :: 0 <= i < |EnvOverrides| && FirstInapplicable(env, EnvOverrides, i)) ==>
      if !PortParses(env, "SHB_HTTP_PORT") then FirstInapplicable(env, EnvOverrides, 3)
      else FirstInapplicable(env, EnvOverrides, 4)
  {
    assert Applicable(env, EnvOverrides[3]) <==> PortParses(env, "SHB_HTTP_PORT");
    assert Applicable(env, EnvOverrides[4]) <==> PortParses(env, "PORT");
  }

  // ---------------------------------------------------------------------------
  // Reading the options in `start`

  /** `getInteger(key, def)`: the default when the key is absent, the integer
      when it holds one, a type error otherwise. */
  function GetInteger(c: Config, key: string, default: int): (r: Result<int, StartError>)
    ensures r.Success? <==> key !in c || c[key].JInt?
    ensures r.Success? ==> if key in c then c[key] == JInt(r.value) else r.value == default
    ensures r.Failure? ==> r.error == WrongType(key)
  {
    if key !in c then Success(default)
    else match c[key]
      case JInt(n) => Success(n)
      case _ => Failure(WrongType(key))
  }

  /** `getBoolean(key, def)`, likewise. */
  function GetBoolean(c: Config, key: string, default: bool): (r: Result<bool, StartError>)
    ensures r.Success? <==> key !in c || c[key].JBool?
    ensures r.Success? ==> if key in c then c[key] == JBool(r.value) else r.value == default
    ensures r.Failure? ==> r.error == WrongType(key)
  {
    if key !in c then Success(default)
    else match c[key]
      case JBool(b) => Success(b)
      case _ => Failure(WrongType(key))
  }

  /** `getString(key)` of a key known to be present. */
  function GetString(c: Config, key: string): (r: Result<string, StartError>)
    requires key in c
    ensures r.Success? <==> c[key].JStr?
    ensures r.Success? ==> c[key] == JStr(r.value)
    ensures r.Failure? ==> r.error == WrongType(key)
  {
    match c[key]
    case JStr(s) => Success(s)
    case _ => Failure(WrongType(key))
  }

  /** `a` keeps some of the elements of `b`, in their order in `b`. */
  ghost predicate Subsequence<T>(a: seq<T>, b: seq<T>)
    decreases |b|
  {
    if a == [] then true
    else if b == [] then false
    else if a[0] == b[0] then Subsequence(a[1..], b[1..])
    else Subsequence(a, b[1..])
  }

  /** The required keys the configuration lacks, in the order requested. */
  function Missing(c: Config, required: seq<string>): (m: seq<string>)
    ensures forall x :: x in m <==> x in required && x !in c
    ensures forall x :: multiset(m)[x] == if x in c then 0 else multiset(required)[x]
    ensures Subsequence(m, required)
    decreases |required|
  {
    if required == [] then []
    else
      var rest := Missing(c, required[1..]);
      assert required == [required[0]] + required[1..];
      if required[0] !in c then
        var m := [required[0]] + rest;
        assert m[1..] == rest;
        m
      else rest
  }

  /** `validateOptions`: passes when every required key is present; otherwise
      fails naming all the missing keys, not just the first. */
  function ValidateOptions(c: Config, required: seq<string>): (r: Outcome<StartError>)
    ensures r.Pass? <==> forall i :: 0 <= i < |required| ==> required[i] in c
    ensures r.Fail? ==> r.error == MissingProperties(Missing(c, required)) && |r.error.names| > 0
  {
    var missing := Missing(c, required);
    if |missing| > 0 then
      assert missing[0] in required && missing[0] !in c;
      Fail(MissingProperties(missing))
    else
      assert forall i :: 0 <= i < |required| ==> required[i] in c by {
        forall i | 0 <= i < |required| ensures required[i] in c {
          var x := required[i];
          assert x in required;
        }
      }
      Pass
  }

  const MissingPrefix: string := "some required properties are missing: "

  /** The message `validateOptions` fails the start with: the fixed prefix,
      then the names as `Arrays.toString` writes them, between brackets. */
  function MissingMessage(names: seq<string>): (message: string)
    ensures |message| >= |MissingPrefix| + 2
    ensures message[..|MissingPrefix|] == MissingPrefix
    ensures message[|MissingPrefix|] == '[' && message[|message| - 1] == ']'
    ensures |names| == 1 ==> message == MissingPrefix + "[" + names[0] + "]"
  {
    MissingPrefix + JavaLang.ArrayToString(names)
  }

  /** TLS is on unless the configuration holds `use_https` = false. */
  predicate TlsOn(c: Config) {
    "use_https" !in c || c["use_https"] == JBool(true)
  }

  /** Every key `start` reads holds a value of the type it is read as; with
      TLS on, both required keys are present and the key material is usable:
      decodable inline contents when given, otherwise the file path. */
  predicate OptionsReadable(c: Config, decode: string -> Option<Bytes>) {
    && ("http_port" !in c || c["http_port"].JInt?)
    && ("use_https" !in c || c["use_https"].JBool?)
    && (TlsOn(c) ==>
         && "keystore_file" in c && "keystore_pass" in c && c["keystore_pass"].JStr?
         && if "keystore_contents" in c then
              c["keystore_contents"].JStr? && decode(c["keystore_contents"].s).Some?
            else c["keystore_file"].JStr?)
  }

  /** The option building of `start`, from the overlaid configuration. The
      Base64 decoder is a parameter: `None` is its rejection of the text. */
  function ServerOptionsFrom(c: Config, decode: string -> Option<Bytes>): (r: Result<ServerOptions, StartError>)
    ensures r.Success? <==> OptionsReadable(c, decode)
    ensures "http_port" in c && !c["http_port"].JInt? ==> r == Failure(WrongType("http_port"))
    ensures r.Success? ==>
      if "http_port" in c then c["http_port"] == JInt(r.value.port) else r.value.port == DefaultPort
    ensures r.Success? ==>
      (if "use_https" in c then c["use_https"] == JBool(r.value.ssl) else r.value.ssl)
    ensures r.Success? ==> (r.value.keystore.Some? <==> r.value.ssl)
    ensures r.Success? && r.value.ssl ==>
      && "keystore_file" in c && "keystore_pass" in c
      && c["keystore_pass"] == JStr(r.value.keystore.value.password)
      && (r.value.keystore.value.source.InlineValue? <==> "keystore_contents" in c)
    ensures r.Success? && r.value.ssl && r.value.keystore.value.source.InlineValue? ==>
      && c["keystore_contents"].JStr?
      && decode(c["keystore_contents"].s) == Some(r.value.keystore.value.source.bytes)
    ensures r.Success? && r.value.ssl && r.value.keystore.value.source.KeystorePath? ==>
      c["keystore_file"] == JStr(r.value.keystore.value.source.path)
    ensures r.Failure? && r.error.MissingProperties? ==>
      TlsOn(c) && r.error.names == Missing(c, TlsRequired) && |r.error.names| > 0
    ensures ("http_port" !in c || c["http_port"].JInt?) && ("use_https" !in c || c["use_https"].JBool?) &&
            TlsOn(c) && |Missing(c, TlsRequired)| > 0 ==>
      r == Failure(MissingProperties(Missing(c, TlsRequired)))
    ensures r.Failure? && r.error.InvalidKeystoreContents? ==>
      "keystore_contents" in c && c["keystore_contents"].JStr? && decode(c["keystore_contents"].s).None?
    ensures r.Failure? ==> !r.error.NumberFormat?
  {
    var port :- GetInteger(c, "http_port", DefaultPort);
    var ssl :- GetBoolean(c, "use_https", true);
    if !ssl then Success(ServerOptions(port, false, None))
    else
      :- ValidateOptions(c, TlsRequired);
      var password :- GetString(c, "keystore_pass");
      if "keystore_contents" in c then
        var contents :- GetString(c, "keystore_contents");
        var bytes :- decode(contents).ToResult(InvalidKeystoreContents);
        Success(ServerOptions(port, true, Some(Keystore(password, InlineValue(bytes)))))
      else
        var path :- GetString(c, "keystore_file");
        Success(ServerOptions(port, true, Some(Keystore(password, KeystorePath(path)))))
  }

  /** `start` up to the creation of the server: the overlay, then the options. */
  function Start(config: Config, env: Env, decode: string -> Option<Bytes>): (r: Result<ServerOptions, StartError>)
    ensures r.Success? <==>
      && PortParses(env, "SHB_HTTP_PORT") && PortParses(env, "PORT")
      && OptionsReadable(OverrideConfigurationWithEnv(config, env).value, decode)
    ensures r.Failure? && r.error.NumberFormat? <==>
      !(PortParses(env, "SHB_HTTP_PORT") && PortParses(env, "PORT"))
    ensures PortParses(env, "SHB_HTTP_PORT") && PortParses(env, "PORT") ==>
      r == ServerOptionsFrom(OverrideConfigurationWithEnv(config, env).value, decode)
  {
    var c :- OverrideConfigurationWithEnv(config, env);
    ServerOptionsFrom(c, decode)
  }
}

=== FILE: digits.dfy ===
/** Decimal digit strings: what a digit is, the value a digit string denotes,
    fixed-width zero-padded rendering, and a bounded scan for a run of digits
    (the way a fixed-width number field of a text parser consumes its input). */
module Digits {

  /** An ASCII decimal digit; the JDK's standard decimal style knows no others. */
  predicate IsDigit(c: char) {
    '0' <= c <= '9'
  }

  predicate AllDigits(s: string) {
    forall i :: 0 <= i < |s| ==> IsDigit(s[i])
  }

  function Pow10(n: nat): (r: nat)
    ensures r >= 1
  {
    if n == 0 then 1 else 10 * Pow10(n - 1)
  }

  function DigitValue(c: char): (d: nat)
    requires IsDigit(c)
    ensures d < 10
  {
    c as int - '0' as int
  }

  function DigitChar(d: nat): (c: char)
    requires d < 10
    ensures IsDigit(c) && DigitValue(c) == d
  {
    ('0' as int + d) as char
  }

  /** The number a digit string denotes, most significant digit first. A string
      of n digits always denotes a number below 10^n. */
  function Value(s: string): (v: nat)
    requires AllDigits(s)
    ensures v < Pow10(|s|)
    decreases |s|
  {
    if |s| == 0 then 0 else Value(s[..|s| - 1]) * 10 + DigitValue(s[|s| - 1])
  }

  /** `n` written with exactly `width` digits, zero-padded on the left. */
  function Pad(n: nat, width: nat): (s: string)
    ensures |s| == width && AllDigits(s)
  {
    if width == 0 then "" else Pad(n / 10, width - 1) + [DigitChar(n % 10)]
  }

  /** The length of the run of digits starting at `from`, reading at most `max`
      characters: the run stops at the limit, at the end of the text or at the
      first character that is not a digit. */
  function CountDigits(s: string, from: nat, max: nat): (k: nat)
    requires from <= |s|
    ensures from + k <= |s| && k <= max
    ensures AllDigits(s[from..from + k])
    ensures k == max || from + k == |s| || !IsDigit(s[from + k])
    decreases max
  {
    if max == 0 || from == |s| || !IsDigit(s[from]) then 0
    else
      var k := CountDigits(s, from + 1, max - 1);
      assert s[from..from + 1 + k] == [s[from]] + s[from + 1..from + 1 + k];
      1 + k
  }

  /** A zero appended on the right multiplies the value by ten. */
  lemma AppendZero(s: string)
    requires AllDigits(s)
    ensures AllDigits(s + "0")
    ensures Value(s + "0") == Value(s) * 10
  {
    assert (s + "0")[..|s|] == s;
  }

  /** A leading zero does not change the value. */
  lemma {:induction false} LeadingZero(s: string)
    requires AllDigits(s)
    ensures AllDigits("0" + s)
    ensures Value("0" + s) == Value(s)
    decreases |s|
  {
    var zeroed := "0" + s;
    if |s| > 0 {
      assert zeroed[..|zeroed| - 1] == "0" + s[..|s| - 1];
      LeadingZero(s[..|s| - 1]);
      assert zeroed[|zeroed| - 1] == s[|s| - 1];
    }
  }

  lemma MulTen(v: nat, p: nat)
    ensures (v * 10) * p == v * (10 * p)
  {
  }

  lemma {:induction false} Pow10Add(a: nat, b: nat)
    ensures Pow10(a) * Pow10(b) == Pow10(a + b)
    decreases a
  {
    if a > 0 {
      Pow10Add(a - 1, b);
    }
  }

  /** Padding then reading back gives the number, when it fits the width. */
  lemma {:induction false} ValueOfPad(n: nat, width: nat)
    requires n < Pow10(width)
    ensures Value(Pad(n, width)) == n
    decreases width
  {
    if width > 0 {
      var s := Pad(n, width);
      assert s[..|s| - 1] == Pad(n / 10, width - 1);
      ValueOfPad(n / 10, width - 1);
    }
  }

  /** A number of `k` digits, shifted to fill `width` places, stays below
      10^width. */
  lemma ShiftedBound(v: nat, k: nat, width: nat)
    requires k <= width && v < Pow10(k)
    ensures v * Pow10(width - k) < Pow10(width)
  {
    Pow10Add(k, width - k);
    MulMonotone(v, Pow10(k), Pow10(width - k));
  }

  lemma MulMonotone(a: nat, b: nat, c: nat)
    requires a < b && c >= 1
    ensures a * c < b * c
  {
    assert b * c == a * c + (b - a) * c;
  }
}

=== FILE: handler.dfy ===
/** The `POST /hello` handler: a form that does not parse is answered with
    400 and no body; one that parses is answered with 200 and a JSON object
    whose single `text` member greets the user who triggered the webhook. */
module Handler {
  import opened Wrappers
  import JavaLang
  import Request
  import Timestamp

  /** The greeting template: user id first, user name second. */
  const HelloResponseFormat: string := "Hey, <@%s|%s> :sunglasses:"

  /** A response body: nothing, or a JSON object of string members (the
      object as a value, before it is encoded as text). */
  datatype Body = Empty | JsonObject(members: map<string, string>)

  datatype Response = Response(status: nat, body: Body)

  /** The template filled with the user id and then the user name. */
  function Greeting(userId: string, userName: string): (text: string)
    ensures text == "Hey, <@" + userId + "|" + userName + "> :sunglasses:"
  {
    GreetingFormat(userId, userName);
    JavaLang.Format(HelloResponseFormat, [userId, userName]).value
  }

  const Tail: string := "> :sunglasses:"

  /** Filling the template succeeds and substitutes the id before the name,
      leaving the mention syntax and the emoji code around them intact. */
  lemma GreetingFormat(userId: string, userName: string)
    ensures JavaLang.Format(HelloResponseFormat, [userId, userName]) ==
      Some("Hey, <@" + userId + "|" + userName + "> :sunglasses:")
  {
    var args := [userId, userName];
    var mention := "%s" + ("|" + ("%s" + Tail));
    var filled := userId + ("|" + (userName + Tail));
    calc {
      JavaLang.Format(HelloResponseFormat, args);
    == { TemplateShape(); }
      JavaLang.Format("Hey, <@" + mention, args);
    == { MentionFormat(userId, userName);
         JavaLang.FormatLiteral("Hey, <@", mention, args); }
      Some("Hey, <@" + filled);
    == { assert "Hey, <@" + filled == "Hey, <@" + userId + "|" + userName + Tail; }
      Some("Hey, <@" + userId + "|" + userName + Tail);
    }
  }

  /** The mention part of the template: `%s|%s` and what follows it. */
  lemma MentionFormat(userId: string, userName: string)
    ensures JavaLang.Format("%s" + ("|" + ("%s" + Tail)), [userId, userName]) ==
      Some(userId + ("|" + (userName + Tail)))
  {
    var second := "%s" + Tail;
    NameFormat(userName);
    JavaLang.FormatLiteral("|", second, [userName]);
    JavaLang.FormatString("|" + second, userId, [userName]);
    assert [userId] + [userName] == [userId, userName];
  }

  /** The user name part: `%s` and the emoji code after it. */
  lemma NameFormat(userName: string)
    ensures JavaLang.Format("%s" + Tail, [userName]) == Some(userName + Tail)
  {
    TailFormat();
    JavaLang.FormatString(Tail, userName, []);
    assert [userName] + [] == [userName];
  }

  lemma TailFormat()
    ensures JavaLang.Format(Tail, []) == Some(Tail)
  {
    JavaLang.FormatLiteral(Tail, [], []);
    assert Tail + [] == Tail;
  }

  lemma TemplateShape()
    ensures HelloResponseFormat == "Hey, <@" + ("%s" + ("|" + ("%s" + Tail)))
  {
  }

  /** What the handler answers to a form body. */
  function HelloRequest(form: Request.Form): (r: Response)
    ensures r.status == 200 || r.status == 400
    ensures r.status == 200 <==>
      Request.AllPresent(form) && Timestamp.Wellformed(form["timestamp"])
    ensures r.status == 400 ==> r.body == Empty
    ensures r.status == 200 ==>
      && r.body.JsonObject?
      && r.body.members.Keys == {"text"}
      && r.body.members["text"] ==
           "Hey, <@" + form["user_id"] + "|" + form["user_name"] + "> :sunglasses:"
  {
    match Request.Parse(form)
    case None => Response(400, Empty)
    case Some(request) =>
      Response(200, JsonObject(map["text" := Greeting(request.userId, request.userName)]))
  }

  /** The greeting for user "U123" named "alice". */
  lemma HelloExample(form: Request.Form)
    requires Request.AllPresent(form) && Timestamp.Wellformed(form["timestamp"])
    requires form["user_id"] == "U123" && form["user_name"] == "alice"
    ensures HelloRequest(form) ==
      Response(200, JsonObject(map["text" := "Hey, <@U123|alice> :sunglasses:"]))
  {
    GreetingExample();
  }

  lemma GreetingExample()
    ensures Greeting("U123", "alice") == "Hey, <@U123|alice> :sunglasses:"
  {
    assert "Hey, <@" + "U123" + "|" + "alice" + "> :sunglasses:" == "Hey, <@U123|alice> :sunglasses:";
  }

  /** A form without a user name is answered 400 with no body. */
  lemma MissingUserNameExample(form: Request.Form)
    requires "user_name" !in form
    ensures HelloRequest(form) == Response(400, Empty)
  {
  }
}

=== FILE: java_lang.dfy ===
/** The few JDK routines the service leans on, as far as it uses them:
    `Integer.valueOf` and `Boolean.valueOf` on environment strings,
    `String.format` with `%s` conversions, and `Arrays.toString` on a
    string array. */
module JavaLang {
  import opened Wrappers
  import opened Digits

  const MinInt: int := -0x8000_0000
  const MaxInt: int := 0x7fff_ffff

  predicate IsSign(c: char) {
    c == '-' || c == '+'
  }

  /** The text `Integer.valueOf` reads: an optional '+' or '-', then at
      least one decimal digit. */
  predicate IntSyntax(s: string) {
    && |s| > 0
    && (IsDigit(s[0]) || (IsSign(s[0]) && |s| > 1))
    && AllDigits(s[1..])
  }

  /** The number such a text denotes, before any range check. */
  function SignedValue(s: string): int
    requires IntSyntax(s)
  {
    if s[0] == '-' then -(Value(s[1..]) as int)
    else if s[0] == '+' then Value(s[1..])
    else Value([s[0]] + s[1..])
  }

  /** `Integer.valueOf(s)`: an optional '+' or '-', then at least one decimal
      digit, denoting a value that fits in 32 bits; anything else is a
      `NumberFormatException`, here `None`. */
  function ParseInt(s: string): (r: Option<int>)
    ensures r.Some? ==> MinInt <= r.value <= MaxInt
    ensures r.Some? ==> IntSyntax(s) && r.value == SignedValue(s)
    ensures IntSyntax(s) && MinInt <= SignedValue(s) <= MaxInt ==> r.Some?
    ensures r.Some? && r.value < 0 ==> s[0] == '-'
  {
    if |s| == 0 then None
    else
      var digits := if IsSign(s[0]) then s[1..] else s;
      assert !IsSign(s[0]) ==> digits == [s[0]] + s[1..];
      if |digits| == 0 || !AllDigits(digits) then None
      else
        var v: int := if s[0] == '-' then -(Value(digits) as int) else Value(digits);
        if MinInt <= v <= MaxInt then Some(v) else None
  }

  /** A '+' sign changes nothing. */
  lemma ParseIntPlusSign(digits: string)
    requires |digits| > 0 && AllDigits(digits)
    ensures ParseInt("+" + digits) == ParseInt(digits)
  {
    var signed := "+" + digits;
    assert signed[1..] == digits;
    assert digits == [digits[0]] + digits[1..];
  }

  /** A leading zero changes nothing. */
  lemma ParseIntLeadingZero(digits: string)
    requires |digits| > 0 && AllDigits(digits)
    ensures ParseInt("0" + digits) == ParseInt(digits)
  {
    var zeroed := "0" + digits;
    LeadingZero(digits);
    assert zeroed == [zeroed[0]] + zeroed[1..];
    assert digits == [digits[0]] + digits[1..];
  }

  /** Nor does a leading zero after a sign. */
  lemma ParseIntSignedLeadingZero(sign: char, digits: string)
    requires IsSign(sign) && |digits| > 0 && AllDigits(digits)
    ensures ParseInt([sign] + ("0" + digits)) == ParseInt([sign] + digits)
  {
    LeadingZero(digits);
    assert ([sign] + ("0" + digits))[1..] == "0" + digits;
    assert ([sign] + digits)[1..] == digits;
  }

  lemma PortTextExamples()
    ensures ParseInt("+8080") == Some(8080)
    ensures ParseInt("08080") == Some(8080)
  {
    ParseIntExamples();
    ParseIntPlusSign("8080");
    ParseIntLeadingZero("8080");
  }

  /** Decimal text of a natural number, without leading zeros. */
  function NatToDecimal(n: nat): (s: string)
    ensures |s| > 0 && AllDigits(s)
    ensures Value(s) == n
  {
    if n < 10 then [DigitChar(n)]
    else
      var s := NatToDecimal(n / 10) + [DigitChar(n % 10)];
      assert s[..|s| - 1] == NatToDecimal(n / 10);
      s
  }

  /** `Integer.toString(n)`: a '-' for negative numbers, then the digits. */
  function IntToDecimal(n: int): string {
    if n < 0 then "-" + NatToDecimal(-n) else NatToDecimal(n)
  }

  /** Every 32-bit integer, written in decimal, is read back as itself. */
  lemma ParseIntToDecimal(n: int)
    requires MinInt <= n <= MaxInt
    ensures ParseInt(IntToDecimal(n)) == Some(n)
  {
    var s := IntToDecimal(n);
    if n < 0 {
      assert s[1..] == NatToDecimal(-n);
    }
  }

  lemma ParseIntExamples()
    ensures ParseInt("8080") == Some(8080)
    ensures ParseInt("-1") == Some(-1)
  {
    ParseIntToDecimal(8080);
    assert IntToDecimal(8080) == "8080";
    ParseIntToDecimal(-1);
    assert IntToDecimal(-1) == "-1";
  }

  lemma ParseIntRefusals()
    ensures ParseInt("") == None
    ensures ParseInt("+") == None
    ensures ParseInt("80a") == None
    ensures ParseInt(" 80") == None
  {
    assert !IsDigit("80a"[2]);
  }

  /** ASCII lower case; the other characters are left alone. */
  function LowerAscii(c: char): char {
    if 'A' <= c <= 'Z' then (c as int - 'A' as int + 'a' as int) as char else c
  }

  /** `Boolean.valueOf(s)`: true exactly for "true" in any mix of cases, and
      false for every other string, the empty one included. It never fails. */
  function BooleanValueOf(s: string): (b: bool)
    ensures b <==> |s| == 4 && s[0] in "tT" && s[1] in "rR" && s[2] in "uU" && s[3] in "eE"
  {
    |s| == 4 && forall i :: 0 <= i < 4 ==> LowerAscii(s[i]) == "true"[i]
  }

  lemma BooleanValueOfExamples()
    ensures BooleanValueOf("true") && BooleanValueOf("TRUE") && BooleanValueOf("tRuE")
    ensures !BooleanValueOf("") && !BooleanValueOf("yes") && !BooleanValueOf("1")
    ensures !BooleanValueOf("true ") && !BooleanValueOf("false")
  {
  }

  /** `String.format` restricted to the conversions the service uses: `%s`
      takes the next argument, `%%` is a '%', and any other use of '%' is an
      unsupported format. Running out of arguments is an error, as Java's
      `MissingFormatArgumentException`; arguments left over are ignored. */
  function Format(fmt: string, args: seq<string>): (r: Option<string>)
    ensures r.None? ==> '%' in fmt
    decreases |fmt|
  {
    if fmt == [] then Some([])
    else if fmt[0] != '%' then
      var rest :- Format(fmt[1..], args);
      Some([fmt[0]] + rest)
    else if |fmt| >= 2 && fmt[1] == '%' then
      var rest :- Format(fmt[2..], args);
      Some("%" + rest)
    else if |fmt| >= 2 && fmt[1] == 's' then
      if args == [] then None
      else
        var rest :- Format(fmt[2..], args[1..]);
        Some(args[0] + rest)
    else None
  }

  /** A character other than '%' is copied through. */
  lemma FormatChar(c: char, fmt: string, args: seq<string>)
    requires c != '%'
    ensures Format([c] + fmt, args) ==
      (if Format(fmt, args).Some? then Some([c] + Format(fmt, args).value) else None)
  {
    assert ([c] + fmt)[1..] == fmt;
  }

  /** Text without '%' is copied through unchanged. */
  lemma {:induction false} FormatLiteral(literal: string, fmt: string, args: seq<string>)
    requires '%' !in literal
    ensures Format(literal + fmt, args) ==
      (if Format(fmt, args).Some? then Some(literal + Format(fmt, args).value) else None)
    decreases |literal|
  {
    if literal == [] {
      assert literal + fmt == fmt;
      if Format(fmt, args).Some? {
        assert literal + Format(fmt, args).value == Format(fmt, args).value;
      }
    } else {
      var rest := literal[1..];
      assert '%' !in rest by {
        assert forall i :: 0 <= i < |rest| ==> rest[i] == literal[i + 1];
      }
      var f := Format(fmt, args);
      FormatLiteral(rest, fmt, args);
      var mid := Format(rest + fmt, args);
      assert literal + fmt == [literal[0]] + (rest + fmt);
      FormatChar(literal[0], rest + fmt, args);
      if f.Some? {
        assert mid == Some(rest + f.value);
        assert [literal[0]] + (rest + f.value) == literal + f.value;
      } else {
        assert mid == None;
      }
    }
  }

  /** A format without conversions is its own result, whatever the arguments. */
  lemma FormatWithoutConversions(fmt: string, args: seq<string>)
    requires '%' !in fmt
    ensures Format(fmt, args) == Some(fmt)
  {
    FormatLiteral(fmt, [], args);
    assert fmt + [] == fmt;
  }

  /** A `%s` is replaced by the first argument, the rest by the others. */
  lemma FormatString(fmt: string, first: string, args: seq<string>)
    ensures Format("%s" + fmt, [first] + args) ==
      (if Format(fmt, args).Some? then Some(first + Format(fmt, args).value) else None)
  {
    assert ("%s" + fmt)[2..] == fmt;
    assert ([first] + args)[1..] == args;
  }

  function Join(parts: seq<string>, separator: string): string {
    if |parts| == 0 then ""
    else if |parts| == 1 then parts[0]
    else parts[0] + separator + Join(parts[1..], separator)
  }

  /** `Arrays.toString` of a string array: the elements between brackets,
      separated by ", ". */
  function ArrayToString(parts: seq<string>): (s: string)
    ensures |s| >= 2 && s[0] == '[' && s[|s| - 1] == ']'
    ensures |parts| == 0 ==> s == "[]"
    ensures |parts| == 1 ==> s == "[" + parts[0] + "]"
    ensures |parts| == 2 ==> s == "[" + parts[0] + ", " + parts[1] + "]"
  {
    assert |parts| == 2 ==> Join(parts[1..], ", ") == parts[1];
    "[" + Join(parts, ", ") + "]"
  }
}

=== FILE: request.dfy ===
/** The outgoing-webhook payload: the ten form fields a request must carry,
    looked up by exact name in a fixed order, with the timestamp parsed as soon
    as it has been read. A request exists only fully populated. */
module Request {
  import opened Wrappers
  import Timestamp

  /** The decoded form body: one value per field name. */
  type Form = map<string, string>

  datatype SlackRequest = SlackRequest(
    token: string,
    timestamp: Timestamp.Instant,
    teamIdentifier: string,
    teamDomain: string,
    channelId: string,
    channelName: string,
    userId: string,
    userName: string,
    trigger: string,
    text: string)

  /** Why a form did not make a request; only internal diagnostics see it. */
  datatype ParseError =
    | MissingField(field: string)      // a required field had no value
    | MalformedTimestamp(raw: string)  // the timestamp text broke the grammar

  /** The fields read after the timestamp: team, channel, user and message. */
  const ContextFields: seq<string> := [
    "team_id", "team_domain", "channel_id", "channel_name", "user_id",
    "user_name", "trigger_word", "text"]

  /** The field names, in the order the parser reads them. */
  const RequiredFields: seq<string> := ["token", "timestamp"] + ContextFields

  /** Every required field has a value. */
  predicate AllPresent(form: Form) {
    && "token" in form && "timestamp" in form && "team_id" in form
    && "team_domain" in form && "channel_id" in form && "channel_name" in form
    && "user_id" in form && "user_name" in form && "trigger_word" in form
    && "text" in form
  }

  /** The position of the first field in `fields` the form lacks, if any. */
  function FirstAbsent(form: Form, fields: seq<string>): (r: Option<nat>)
    ensures r.None? <==> forall i :: 0 <= i < |fields| ==> fields[i] in form
    ensures r.Some? ==>
      && r.value < |fields|
      && fields[r.value] !in form
      && forall i :: 0 <= i < r.value ==> fields[i] in form
  {
    if |fields| == 0 then None
    else if fields[0] !in form then Some(0)
    else match FirstAbsent(form, fields[1..]) {
      case None => None
      case Some(k) => Some(k + 1)
    }
  }

  /** The value posted under `property`, or the error naming it. An empty value
      is a value: only absence is refused. */
  function GetPostValue(form: Form, property: string): (r: Result<string, ParseError>)
    ensures r.Success? <==> property in form
    ensures r.Success? ==> r.value == form[property]
    ensures r.Failure? ==> r.error == MissingField(property)
  {
    if property in form then Success(form[property]) else Failure(MissingField(property))
  }

  /** `GetPostValue` on each field in turn, stopping at the first that fails. */
  function GetPostValues(form: Form, fields: seq<string>): (r: Result<seq<string>, ParseError>)
    ensures r.Success? <==> FirstAbsent(form, fields).None?
    ensures r.Success? ==>
      && |r.value| == |fields|
      && forall k :: 0 <= k < |fields| ==> r.value[k] == form[fields[k]]
    ensures r.Failure? ==>
      && FirstAbsent(form, fields).Some?
      && r.error == MissingField(fields[FirstAbsent(form, fields).value])
  {
    if |fields| == 0 then Success([])
    else
      var value :- GetPostValue(form, fields[0]);
      var rest :- GetPostValues(form, fields[1..]);
      Success([value] + rest)
  }

  /** The parse with its internal error. Fields are read in `RequiredFields`
      order and the first failure ends it: a missing field, or the timestamp
      text, which is checked right after it is read and before `team_id`. */
  function ParseRequest(form: Form): (r: Result<SlackRequest, ParseError>)
    ensures r.Success? <==>
      AllPresent(form) && Timestamp.Wellformed(form["timestamp"])
    ensures r.Success? ==>
      && r.value.token == form["token"]
      && Some(r.value.timestamp) == Timestamp.Parse(form["timestamp"])
      && r.value.teamIdentifier == form["team_id"]
      && r.value.teamDomain == form["team_domain"]
      && r.value.channelId == form["channel_id"]
      && r.value.channelName == form["channel_name"]
      && r.value.userId == form["user_id"]
      && r.value.userName == form["user_name"]
      && r.value.trigger == form["trigger_word"]
      && r.value.text == form["text"]
    ensures r.Failure? && r.error.MalformedTimestamp? ==>
      && "token" in form && "timestamp" in form
      && r.error.raw == form["timestamp"]
      && !Timestamp.Wellformed(form["timestamp"])
  {
    ContextPresent(form);
    var token :- GetPostValue(form, "token");
    var raw :- GetPostValue(form, "timestamp");
    var timestamp :- Timestamp.Parse(raw).ToResult(MalformedTimestamp(raw));
    var context :- GetPostValues(form, ContextFields);
    Success(SlackRequest(token, timestamp, context[0], context[1], context[2],
                         context[3], context[4], context[5], context[6], context[7]))
  }

  /** The context fields are all present exactly when the explicit list says
      they are. */
  lemma ContextPresent(form: Form)
    ensures FirstAbsent(form, ContextFields).None? <==>
      && "team_id" in form && "team_domain" in form && "channel_id" in form
      && "channel_name" in form && "user_id" in form && "user_name" in form
      && "trigger_word" in form && "text" in form
  {
    if FirstAbsent(form, ContextFields).None? {
      assert ContextFields[0] in form && ContextFields[1] in form;
      assert ContextFields[2] in form && ContextFields[3] in form;
      assert ContextFields[4] in form && ContextFields[5] in form;
      assert ContextFields[6] in form && ContextFields[7] in form;
    }
  }

  /** The public parse: a request, or nothing at all. */
  function Parse(form: Form): (r: Option<SlackRequest>)
    ensures r.Some? <==> AllPresent(form) && Timestamp.Wellformed(form["timestamp"])
    ensures r.Some? ==> r.value.userId == form["user_id"] && r.value.userName == form["user_name"]
  {
    ParseRequest(form).ToOption()
  }

  /** The explicit field list and the ordered one agree. */
  lemma AllPresentIffNoneAbsent(form: Form)
    ensures AllPresent(form) <==> FirstAbsent(form, RequiredFields).None?
  {
    if FirstAbsent(form, RequiredFields).None? {
      assert RequiredFields[0] in form && RequiredFields[1] in form;
      ContextPresent(form);
      assert FirstAbsent(form, ContextFields).None? by {
        forall i | 0 <= i < |ContextFields|
          ensures ContextFields[i] in form
        {
          assert ContextFields[i] == RequiredFields[i + 2];
        }
      }
    }
  }

  /** Fail-fast lookup: a missing field is reported only when every field
      read before it was present (and, past the timestamp, the timestamp
      parsed), and it is the first missing one in the fixed order. */
  lemma MissingFieldIsFirstAbsent(form: Form)
    ensures ParseRequest(form).Failure? && ParseRequest(form).error.MissingField? ==>
      && FirstAbsent(form, RequiredFields).Some?
      && ParseRequest(form).error.field == RequiredFields[FirstAbsent(form, RequiredFields).value]
      && (FirstAbsent(form, RequiredFields).value > 1 ==> Timestamp.Wellformed(form["timestamp"]))
  {
    var first := FirstAbsent(form, RequiredFields);
    if "token" !in form {
      assert RequiredFields[0] !in form;
      assert first == Some(0);
    } else if "timestamp" !in form {
      assert RequiredFields[0] in form && RequiredFields[1] !in form;
      assert first == Some(1);
    } else if Timestamp.Wellformed(form["timestamp"]) && FirstAbsent(form, ContextFields).Some? {
      var k := FirstAbsent(form, ContextFields).value;
      assert ContextFields[k] == RequiredFields[k + 2];
      forall j | 0 <= j < k + 2
        ensures RequiredFields[j] in form
      {
        if j >= 2 {
          assert RequiredFields[j] == ContextFields[j - 2];
        }
      }
      assert first == Some(k + 2);
    }
  }

  /** Leaving out any one field, or all of them, is refused. */
  lemma MissingFieldRefused(form: Form, i: nat)
    requires i < |RequiredFields| && RequiredFields[i] !in form
    ensures Parse(form) == None
  {
    AllPresentIffNoneAbsent(form);
  }

  /** Only absence is refused: a present but empty value is kept as it is,
      except for the timestamp, whose grammar the empty string breaks. */
  lemma EmptyValueAccepted(form: Form, field: string)
    requires Parse(form).Some?
    requires field in RequiredFields && field != "timestamp"
    ensures Parse(form[field := ""]).Some?
  {
    var blanked := form[field := ""];
    assert AllPresent(blanked);
    assert blanked["timestamp"] == form["timestamp"];
  }

  lemma EmptyTimestampRefused(form: Form)
    requires AllPresent(form) && form["timestamp"] == ""
    ensures ParseRequest(form) == Failure(MalformedTimestamp(""))
  {
  }

  /** Two forms that agree on `fields` read them alike. */
  lemma {:induction false} GetPostValuesAgree(a: Form, b: Form, fields: seq<string>)
    requires forall f :: f in fields ==> Get(a, f) == Get(b, f)
    ensures GetPostValues(a, fields) == GetPostValues(b, fields)
  {
    if |fields| > 0 {
      assert fields[0] in fields;
      assert GetPostValue(a, fields[0]) == GetPostValue(b, fields[0]);
      GetPostValuesAgree(a, b, fields[1..]);
    }
  }

  /** The parse reads nothing but the ten fields: two forms that agree on them
      parse alike, whatever else they carry, and the same form always parses
      to the same request. */
  lemma ParseReadsOnlyRequiredFields(a: Form, b: Form)
    requires forall f :: f in RequiredFields ==> Get(a, f) == Get(b, f)
    ensures ParseRequest(a) == ParseRequest(b)
  {
    assert RequiredFields[0] == "token" && RequiredFields[1] == "timestamp";
    assert GetPostValue(a, "token") == GetPostValue(b, "token") by {
      assert RequiredFields[0] in RequiredFields;
    }
    assert GetPostValue(a, "timestamp") == GetPostValue(b, "timestamp") by {
      assert RequiredFields[1] in RequiredFields;
    }
    GetPostValuesAgree(a, b, ContextFields);
  }
}

=== FILE: startup.dfy ===
/** What `start` promises about the environment and configuration it is
    given, stated over `Configuration.Start`. */
module Startup {
  import opened Wrappers
  import JavaLang
  import opened Configuration

  /** With both port variables set and valid, `PORT` decides the port. */
  lemma PortWinsOverHttpPort(config: Config, env: Env, decode: string -> Option<Bytes>)
    requires "SHB_HTTP_PORT" in env && "PORT" in env
    requires PortParses(env, "SHB_HTTP_PORT") && PortParses(env, "PORT")
    ensures Start(config, env, decode).Success? ==>
      Start(config, env, decode).value.port == JavaLang.ParseInt(env["PORT"]).value
  {
  }

  /** An invalid `SHB_HTTP_PORT` aborts the start even when `PORT`, which
      would have overwritten it, is valid. */
  lemma InvalidHttpPortAborts(config: Config, env: Env, decode: string -> Option<Bytes>)
    requires "SHB_HTTP_PORT" in env && JavaLang.ParseInt(env["SHB_HTTP_PORT"]).None?
    ensures Start(config, env, decode) == Failure(NumberFormat("SHB_HTTP_PORT", env["SHB_HTTP_PORT"]))
  {
  }

  /** Nothing sets the port: 8443. Nothing sets TLS: it is on. */
  lemma Defaults(config: Config, env: Env, decode: string -> Option<Bytes>)
    ensures "http_port" !in config && "SHB_HTTP_PORT" !in env && "PORT" !in env &&
            Start(config, env, decode).Success? ==>
              Start(config, env, decode).value.port == DefaultPort
    ensures "use_https" !in config && "SHB_USE_SSL" !in env &&
            Start(config, env, decode).Success? ==>
              Start(config, env, decode).value.ssl
  {
  }

  /** `SHB_USE_SSL` is read with `Boolean.valueOf`: any text other than
      "true" in some case, the empty text included, turns TLS off, and then
      no keystore key is checked or read: the start can only fail on a port. */
  lemma TlsOffSkipsKeystore(config: Config, env: Env, decode: string -> Option<Bytes>)
    requires "SHB_USE_SSL" in env && !JavaLang.BooleanValueOf(env["SHB_USE_SSL"])
    ensures Start(config, env, decode).Success? ==>
      !Start(config, env, decode).value.ssl && Start(config, env, decode).value.keystore == None
    ensures Start(config, env, decode).Failure? ==>
      Start(config, env, decode).error.NumberFormat? ||
      Start(config, env, decode).error == WrongType("http_port")
  {
  }

  /** The port a configuration readable as an integer port gives the server. */
  function PortOf(c: Config): (port: int)
    requires "http_port" !in c || c["http_port"].JInt?
    ensures "http_port" in c ==> c["http_port"] == JInt(port)
    ensures "http_port" !in c ==> port == DefaultPort
  {
    if "http_port" in c then c["http_port"].n else DefaultPort
  }

  /** Inline contents do not stand in for the keystore file: with TLS on, a
      missing `keystore_file` stops the start even when contents are given. */
  lemma ContentsDoNotExcuseFile(c: Config, decode: string -> Option<Bytes>)
    requires ("http_port" !in c || c["http_port"].JInt?) && TlsOn(c)
    requires "keystore_contents" in c && "keystore_file" !in c
    ensures ServerOptionsFrom(c, decode).Failure?
    ensures ServerOptionsFrom(c, decode).error.MissingProperties?
    ensures "keystore_file" in ServerOptionsFrom(c, decode).error.names
  {
  }

  /** With TLS on and both required keys present, inline contents, when
      present, are the key material, and the file path is not used. */
  lemma InlineContentsPreferred(c: Config, decode: string -> Option<Bytes>, password: string, contents: string)
    requires ("http_port" !in c || c["http_port"].JInt?) && TlsOn(c)
    requires "keystore_file" in c
    requires "keystore_pass" in c && c["keystore_pass"] == JStr(password)
    requires "keystore_contents" in c && c["keystore_contents"] == JStr(contents)
    requires decode(contents).Some?
    ensures ServerOptionsFrom(c, decode) ==
      Success(ServerOptions(PortOf(c), true, Some(Keystore(password, InlineValue(decode(contents).value)))))
  {
  }

  /** With TLS on, both required keys present and no inline contents, the
      keystore is read from the file path. */
  lemma KeystorePathWithoutContents(c: Config, decode: string -> Option<Bytes>, password: string, path: string)
    requires ("http_port" !in c || c["http_port"].JInt?) && TlsOn(c)
    requires "keystore_contents" !in c
    requires "keystore_file" in c && c["keystore_file"] == JStr(path)
    requires "keystore_pass" in c && c["keystore_pass"] == JStr(password)
    ensures ServerOptionsFrom(c, decode) ==
      Success(ServerOptions(PortOf(c), true, Some(Keystore(password, KeystorePath(path)))))
  {
    assert Missing(c, TlsRequired) == [];
  }

  /** TLS on and neither certificate key: both are named, in order. */
  lemma NoKeystoreKeys(c: Config, decode: string -> Option<Bytes>)
    requires ("http_port" !in c || c["http_port"].JInt?) && TlsOn(c)
    requires "keystore_file" !in c && "keystore_pass" !in c
    ensures ServerOptionsFrom(c, decode) == Failure(MissingProperties(["keystore_file", "keystore_pass"]))
  {
    BothMissing(c);
  }

  lemma BothMissing(c: Config)
    requires "keystore_file" !in c && "keystore_pass" !in c
    ensures Missing(c, TlsRequired) == ["keystore_file", "keystore_pass"]
  {
    assert TlsRequired[1..][1..] == [];
    assert Missing(c, TlsRequired[1..]) == ["keystore_pass"];
  }

  /** An empty environment leaves the configuration as it is. */
  lemma EmptyEnvironment(config: Config)
    ensures OverrideConfigurationWithEnv(config, map[]) == Success(config)
  {
    var r := OverrideConfigurationWithEnv(config, map[]);
    assert forall k :: Get(r.value, k) == Get(config, k);
    assert r.value.Keys == config.Keys by {
      forall k ensures k in r.value <==> k in config {
        assert Get(r.value, k) == Get(config, k);
      }
    }
  }

  /** TLS on in the configuration, nothing from the environment and no
      certificate keys: the start fails naming both keys. */
  lemma BothKeystoreKeysMissing(config: Config, decode: string -> Option<Bytes>)
    requires ("http_port" !in config || config["http_port"].JInt?) && TlsOn(config)
    requires "keystore_file" !in config && "keystore_pass" !in config
    ensures Start(config, map[], decode) == Failure(MissingProperties(["keystore_file", "keystore_pass"]))
  {
    calc {
      Start(config, map[], decode);
    == { EmptyEnvironment(config); }
      ServerOptionsFrom(config, decode);
    == { NoKeystoreKeys(config, decode); }
      Failure(MissingProperties(["keystore_file", "keystore_pass"]));
    }
  }

  /** The start failure message for that case. */
  lemma BothKeystoreKeysMessage()
    ensures MissingMessage(TlsRequired) == MissingPrefix + "[keystore_file, keystore_pass]"
  {
    KeystoreKeysList();
  }

  /** The two keystore keys as `Arrays.toString` writes them. */
  lemma KeystoreKeysList()
    ensures JavaLang.ArrayToString(TlsRequired) == "[keystore_file, keystore_pass]"
  {
    assert TlsRequired[0] == "keystore_file" && TlsRequired[1] == "keystore_pass";
  }

  /** Path and password from the environment, no inline contents: the
      keystore is read from the path. */
  lemma KeystoreFromEnvironmentPath(config: Config, env: Env, decode: string -> Option<Bytes>)
    requires config == map[]
    requires "SHB_KEYSTORE_FILE" in env && "SHB_KEYSTORE_PASS" in env
    requires "SHB_KEYSTORE_CONTENTS" !in env && "SHB_HTTP_PORT" !in env
    requires "PORT" !in env && "SHB_USE_SSL" !in env
    ensures Start(config, env, decode) ==
      Success(ServerOptions(DefaultPort, true,
        Some(Keystore(env["SHB_KEYSTORE_PASS"], KeystorePath(env["SHB_KEYSTORE_FILE"])))))
  {
    var c := OverrideConfigurationWithEnv(config, env).value;
    assert Get(c, "keystore_file") == Some(JStr(env["SHB_KEYSTORE_FILE"]));
    assert Get(c, "keystore_pass") == Some(JStr(env["SHB_KEYSTORE_PASS"]));
    assert Get(c, "keystore_contents") == None;
    assert Get(c, "http_port") == None;
    assert Get(c, "use_https") == None;
    KeystorePathWithoutContents(c, decode, env["SHB_KEYSTORE_PASS"], env["SHB_KEYSTORE_FILE"]);
    assert Start(config, env, decode) == ServerOptionsFrom(c, decode);
  }
}

=== FILE: timestamp.dfy ===
/** The request timestamp grammar of the webhook payload: exactly ten digits of
    epoch seconds, a mandatory '.', then zero to nine digits of fraction that
    are scaled to nanoseconds, with nothing after them. The instant itself is
    kept as a (seconds, nanos) pair. */
module Timestamp {
  import opened Wrappers
  import opened Digits

  const SecondsWidth: nat := 10
  const MaxFractionDigits: nat := 9

  datatype Instant = Instant(seconds: nat, nanos: nat)

  /** The text the formatter accepts, stated as a whole. */
  predicate Wellformed(s: string) {
    && SecondsWidth + 1 <= |s| <= SecondsWidth + 1 + MaxFractionDigits
    && AllDigits(s[..SecondsWidth])
    && s[SecondsWidth] == '.'
    && AllDigits(s[SecondsWidth + 1..])
  }

  /** Parses the way a strict `DateTimeFormatter` does, field by field: a fixed-width
      seconds field, the literal '.', a fraction field of at most nine digits,
      and a final check that no text is left unparsed. */
  function Parse(s: string): (r: Option<Instant>)
    ensures r.Some? <==> Wellformed(s)
    ensures r.Some? ==>
      && r.value.seconds == Value(s[..SecondsWidth])
      && r.value.nanos == Nanos(s[SecondsWidth + 1..])
    ensures r.Some? ==> r.value.seconds < Pow10(SecondsWidth) && r.value.nanos < Pow10(MaxFractionDigits)
  {
    var secondDigits := CountDigits(s, 0, SecondsWidth);
    if secondDigits < SecondsWidth then
      ShortSecondsRejected(s, secondDigits);
      None
    else if |s| == SecondsWidth || s[SecondsWidth] != '.' then None
    else
      assert s[..SecondsWidth] == s[0..0 + secondDigits];
      var nanos :- ParseFraction(s);
      Some(Instant(Value(s[..SecondsWidth]), nanos))
  }

  /** The fraction field and the end-of-text check, once the seconds and the
      '.' have been read. */
  function ParseFraction(s: string): (r: Option<nat>)
    requires SecondsWidth < |s| && AllDigits(s[..SecondsWidth]) && s[SecondsWidth] == '.'
    ensures r.Some? <==> Wellformed(s)
    ensures r.Some? ==> r.value == Nanos(s[SecondsWidth + 1..])
  {
    var fractionDigits := CountDigits(s, SecondsWidth + 1, MaxFractionDigits);
    if SecondsWidth + 1 + fractionDigits < |s| then
      UnparsedTextRejected(s, fractionDigits);
      None
    else
      FieldsAccepted(s, fractionDigits);
      Some(Nanos(s[SecondsWidth + 1..]))
  }

  lemma ShortSecondsRejected(s: string, k: nat)
    requires k < SecondsWidth && k <= |s|
    requires k == |s| || !IsDigit(s[k])
    ensures !Wellformed(s)
  {
    if SecondsWidth <= |s| {
      assert !IsDigit(s[..SecondsWidth][k]);
    }
  }

  lemma UnparsedTextRejected(s: string, k: nat)
    requires k <= MaxFractionDigits && SecondsWidth + 1 + k < |s|
    requires k == MaxFractionDigits || !IsDigit(s[SecondsWidth + 1 + k])
    ensures !Wellformed(s)
  {
    if k < MaxFractionDigits {
      assert !IsDigit(s[SecondsWidth + 1..][k]);
    }
  }

  lemma FieldsAccepted(s: string, k: nat)
    requires |s| == SecondsWidth + 1 + k && k <= MaxFractionDigits
    requires AllDigits(s[..SecondsWidth]) && s[SecondsWidth] == '.'
    requires AllDigits(s[SecondsWidth + 1..SecondsWidth + 1 + k])
    ensures Wellformed(s)
  {
    assert s[SecondsWidth + 1..SecondsWidth + 1 + k] == s[SecondsWidth + 1..];
  }

  /** Fraction digits read as a count of nanoseconds: the digits are the
      leading places of a nine-place fraction. */
  function Nanos(fraction: string): (n: nat)
    requires AllDigits(fraction) && |fraction| <= MaxFractionDigits
    ensures n < Pow10(MaxFractionDigits)
  {
    ShiftedBound(Value(fraction), |fraction|, MaxFractionDigits);
    Value(fraction) * Pow10(MaxFractionDigits - |fraction|)
  }

  /** Trailing zeros in the fraction change nothing: ".5" and ".500" are the
      same half second. */
  lemma NanosTrailingZero(fraction: string)
    requires AllDigits(fraction) && |fraction| < MaxFractionDigits
    ensures AllDigits(fraction + "0")
    ensures Nanos(fraction + "0") == Nanos(fraction)
  {
    AppendZero(fraction);
    var longer := fraction + "0";
    var v := Value(fraction);
    var p := Pow10(MaxFractionDigits - |longer|);
    assert Pow10(MaxFractionDigits - |fraction|) == 10 * p;
    assert Nanos(longer) == Value(longer) * p;
    assert Nanos(fraction) == v * (10 * p);
    MulTen(v, p);
  }

  /** Seconds as ten zero-padded digits, '.', nanos as nine zero-padded digits. */
  function Render(t: Instant): (s: string)
    requires t.seconds < Pow10(SecondsWidth) && t.nanos < Pow10(MaxFractionDigits)
    ensures |s| == SecondsWidth + 1 + MaxFractionDigits
  {
    Pad(t.seconds, SecondsWidth) + "." + Pad(t.nanos, MaxFractionDigits)
  }

  /** Every instant the grammar can express survives rendering and parsing. */
  lemma {:induction false} ParseRender(t: Instant)
    requires t.seconds < Pow10(SecondsWidth) && t.nanos < Pow10(MaxFractionDigits)
    ensures Parse(Render(t)) == Some(t)
  {
    var s := Render(t);
    assert s[..SecondsWidth] == Pad(t.seconds, SecondsWidth);
    assert s[SecondsWidth + 1..] == Pad(t.nanos, MaxFractionDigits);
    ValueOfPad(t.seconds, SecondsWidth);
    ValueOfPad(t.nanos, MaxFractionDigits);
  }

  lemma SecondsExample()
    ensures Value("1426992833") == 1426992833
  {
    assert Pad(1426992833, 10) == "1426992833";
    ValueOfPad(1426992833, 10);
  }

  /** A six-digit fraction is microseconds: it gains three zeros as nanos. */
  lemma MicrosecondExample()
    ensures Parse("1426992833.123456") == Some(Instant(1426992833, 123456000))
  {
    var s := "1426992833.123456";
    assert Wellformed(s);
    assert s[..10] == "1426992833";
    assert s[11..] == "123456";
    SecondsExample();
    MicrosecondNanos();
  }

  lemma MicrosecondNanos()
    ensures Nanos("123456") == 123456000
  {
    assert Pad(123456, 6) == "123456";
    ValueOfPad(123456, 6);
  }

  /** The fraction may be empty, but the '.' may not. */
  lemma EmptyFractionExample()
    ensures Parse("1426992833.") == Some(Instant(1426992833, 0))
    ensures Parse("1426992833") == None
  {
    var s := "1426992833.";
    assert Wellformed(s);
    assert s[..10] == "1426992833";
    assert s[11..] == "";
    SecondsExample();
  }

  lemma MalformedExamples()
    ensures Parse("abc") == None
    ensures Parse("") == None
    ensures Parse("1426992833.abc") == None
    ensures Parse("14269928331.5") == None
    ensures Parse("1426992833.5 ") == None
    ensures Parse("1426992833.1234567890") == None
    ensures Parse("+426992833.5") == None
  {
    assert !Wellformed("1426992833.abc") by {
      assert !IsDigit("1426992833.abc"[11..][0]);
    }
    assert !Wellformed("14269928331.5") by {
      assert "14269928331.5"[10] != '.';
    }
    assert !Wellformed("1426992833.5 ") by {
      assert !IsDigit("1426992833.5 "[11..][1]);
    }
    assert !Wellformed("+426992833.5") by {
      assert !IsDigit("+426992833.5"[..10][0]);
    }
  }
}

=== FILE: wrappers.dfy ===
/** Failure-compatible result types: `Option` for `java.util.Optional`,
    `Result` for a value-or-exception outcome and
    `Outcome` for a check that either passes or fails with an error. */
module Wrappers {

  datatype Option<+T> = None | Some(value: T) {

    predicate IsFailure() {
      None?
    }

    function PropagateFailure<U>(): Option<U>
      requires None?
    {
      None
    }

    function Extract(): T
      requires Some?
    {
      value
    }

    /** Turns absence into a failure carrying `error`. */
    function ToResult<E>(error: E): Result<T, E> {
      match this
      case Some(v) => Success(v)
      case None => Failure(error)
    }
  }

  datatype Result<+R, +E> = Success(value: R) | Failure(error: E) {

    predicate IsFailure() {
      Failure?
    }

    function PropagateFailure<U>(): Result<U, E>
      requires Failure?
    {
      Failure(error)
    }

    function Extract(): R
      requires Success?
    {
      value
    }

    /** Forgets the error, as a `catch` that returns `Optional.empty()` does. */
    function ToOption(): Option<R> {
      match this
      case Success(v) => Some(v)
      case Failure(_) => None
    }
  }

  datatype Outcome<+E> = Pass | Fail(error: E) {

    predicate IsFailure() {
      Fail?
    }

    function PropagateFailure<U>(): Result<U, E>
      requires Fail?
    {
      Failure(error)
    }
  }

  /** The value stored under `k`, if any. */
  function Get<K, V>(m: map<K, V>, k: K): Option<V> {
    if k in m then Some(m[k]) else None
  }
}
